=== FILE: README.md ===
# Bingo Bingo draw service and ticket checker — a Dafny model

This project models the two pieces of logic in the Bingo Bingo ticket checker:

- **Star-pick settlement** (`bingo_app.py`). A ticket picks 1 to 6 numbers (the
  "stars"). It is checked against every draw on hand. For each draw the checker:
  - counts the chosen numbers that were drawn;
  - looks up the prize for that count in the static prize table (0 when the
    table has no tier for it);
  - raises a positive prize to `int(prize * 1.5)` when the promotion is on;
  - multiplies the prize by the stake multiplier and adds it to the total.

  The ticket costs 25 × multiplier × number of draws. The page settles a ticket
  only when exactly `play_star` numbers are chosen and a start draw id is given.
  A non-empty selection of any other size is reported as an error.
- **Draw-source aggregation** (`api/bingo.py`). The handler tries four fetch
  strategies in a fixed order: the lottery's JSON API through a proxy, an HTML
  results page through the same proxy, the JSON API directly, and the HTML page
  through a second proxy.
  - A request that raises, a status other than 200, or a parse that raises moves
    on to the next strategy.
  - The list of records is shared by all strategies. The official parser
    replaces it, but only when its parse does not raise. The HTML row loop
    appends to it, and a row whose scan raises leaves the records of the
    earlier rows in place.
  - A strategy that gets past its parser with a non-empty list wins, and no
    later strategy is tried.
  - The reply carries the records, `success` (whether there are any) and
    `source` (the winning strategy's type, or `無`).
  - The JSON parser keeps the first 20 records of `content`.
  - The HTML parser keeps a table row when its text contains `期`, holds at
    least 20 numbers in [1, 80] and holds a draw id matching `11[0-9]{7}`.
  - `int()` and `str()` refuse numbers of more than 4300 digits, Python's
    default limit. A row whose text holds a longer digit run therefore raises
    inside the row loop.

Because records left by a raising row loop are carried over, the reply can be
`success = true` with `source = 無`: the second strategy appends a record and
then raises on a later row, and the last two strategies fail
(`LeftoverAfterRaise`). Such records can also be reported under the label of a
later HTML strategy that finds nothing itself. So "first success wins" and
"`source` is `無` exactly when there is no data" hold only when no row loop
raises (`Clean`). The model proves them under that condition and states the
general facts without it.

Modules, one concern each:

| file | module | models |
|---|---|---|
| `wrappers.dfy` | `Wrappers` | `Option`, for values that may be missing or for a Python call that raised |
| `pytext.dfy` | `PyText` | the Python text primitives the parsers use: `re.findall(r'\d+')`, `int()`, `str()` on integers, `[:n]`, `str.replace` |
| `prizes.dfy` | `Prizes` | `PRIZE_TABLE`, the match count, the table lookup and the ×1.5 promotion |
| `settlement.dfy` | `Settlement` | the settlement loop (an imperative method with a loop invariant), its specification function, and the page's guard |
| `parsers.dfy` | `DrawParsers` | the JSON record mapping, the HTML row parser and the row loop (a method) |
| `aggregator.dfy` | `Aggregator` | the strategy list, the first-success loop (a method with `break`/`continue`) and its specification |

Two things that are inputs here, not computations:

- The network: `FetchDraws` receives one `Outcome` per strategy. An outcome is
  either `Raised` or `Answered(status, body)`.
- The body's two readings: the decoded JSON document, and the texts of the
  page's `tr` rows.

The draw dictionary of the page is modelled as its `items()` sequence, a list of
(draw id, numbers) pairs.

The model follows the code as written, including where it departs from what
its own comments describe:

- Settlement goes through every entry of the draw dictionary
  (bingo_app.py:95). It does not look up `start_draw + i` for
  `i < draw_counts`, although the comment at bingo_app.py:93-94 says a real
  check would compare the draws from `start_draw` to
  `start_draw + draw_counts`. The start id only takes part in the guard, and
  missing draws are never skipped.
- The promotion is `int(base * 1.5)` on positive prizes
  (bingo_app.py:104-105), the demonstration rate the comment at
  bingo_app.py:103 names. There is no separate bonus table.
- Neither parser rejects a record whose numbers repeat. The JSON parser also
  checks neither how many numbers a record has nor their range. Only the HTML
  parser guarantees 20 numbers in [1, 80].
- Only the star-pick game exists in this code. There are no size or parity bets.

## Model

| member | source | states |
|---|---|---|
| `Prizes.TierFacts` | bingo_app.py:15-22 | every star count 1..6 has a full-match tier; every tier needs between 1 and `star` matches and pays a positive amount |
| `Prizes.TableStars` | bingo_app.py:15-22 | the table covers exactly the star counts 1 to 6 |
| `Prizes.BasePrizeMonotone` | bingo_app.py:15-22 | for a fixed star count, matching more numbers (up to the star count) never pays less, and no prize is negative |
| `Prizes.Elements` | bingo_app.py:97 | `set(xs)` holds exactly the members of the list |
| `Prizes.ElementsSize` | bingo_app.py:97 | a list has at least as many entries as its set has members |
| `Prizes.MatchCount` | bingo_app.py:97-98 | the match count is the size of the intersection of the chosen and winning sets; it is at most the number of chosen numbers and at most the number of winning numbers |
| `Prizes.BasePrize` | bingo_app.py:101 | the table's prize when the match count has a tier, 0 otherwise |
| `Prizes.Promote` | bingo_app.py:104-105 | with the promotion, a positive prize becomes the largest integer not above 1.5 × prize; otherwise it is unchanged |
| `Prizes.PromoteBounds` | bingo_app.py:104-105 | the promotion never lowers a prize, adds at most half of it, and keeps a prize at zero exactly when it was zero |
| `Prizes.PrizeExamples` | bingo_app.py:18-19 | 3 stars with 3 matches pays 500, or 750 under the promotion; 3 stars with 1 match pays 0; 4 stars with 2 matches pays 37 under the promotion |
| `Settlement.RowFor` | bingo_app.py:95-107 | a row keeps the draw's id and numbers; its matched set holds exactly the numbers both chosen and drawn, and its size is the match count |
| `Settlement.SettledRows` | bingo_app.py:95-115 | one row per entry of the draw map, in iteration order; row `i` is that draw's id, numbers, matched set and prize |
| `Settlement.TotalPrize` | bingo_app.py:88-108 | the total of rows none of which has a negative prize is not negative |
| `Settlement.TotalPrizeAppend` | bingo_app.py:108 | the running total over two lists of rows is the sum of their totals |
| `Settlement.TotalPrizeStep` | bingo_app.py:108 | one more row adds its prize to the running total |
| `Settlement.SettledRowsStep` | bingo_app.py:95-115 | one more draw adds its row at the end of the rows |
| `Settlement.Settle` | bingo_app.py:88-115 | the cost is 25 × multiplier × number of draws, whatever the draw data; the rows are `SettledRows`; the total prize is the sum of the rows' prizes |
| `Settlement.CheckTicket` | bingo_app.py:85-129 | it settles exactly when the selection has `play_star` numbers and a start id is given; it reports the size error exactly when the selection is non-empty and of another size; a settled ticket is `Settle`'s result |
| `Settlement.RowPrize` | bingo_app.py:97-107 | within the widget ranges, a row's prize is non-negative and is zero exactly when its match count has no tier; the matched set is no larger than the selection |
| `Settlement.ScaledByMultiplier` | bingo_app.py:107 | scaling by a multiplier of at least 1 never lowers a non-negative prize, and gives zero only for a zero prize |
| `Settlement.PrizesNonNegative` | bingo_app.py:101-108 | within the widget ranges, every row's prize and the total prize are non-negative |
| `Settlement.SettleMoreDraws` | bingo_app.py:95-115 | settling more draws only appends rows; earlier rows are unchanged and the total grows by the new rows' prizes |
| `Settlement.SampleMatches` | bingo_app.py:41 | the numbers 3, 8 and 12 are all drawn in sample draw 113000123 |
| `Settlement.SampleDrawExample` | bingo_app.py:95-107 | against sample draw 113000123, a default ticket (3 stars, multiplier 4) on 3, 8, 12 matches all three and wins 2000, or 3000 under the promotion |
| `PyText.DigitValue` | api/bingo.py:44 | a digit's value is below 10; an ASCII digit's value is its distance from `'0'` |
| `PyText.RunLength` | api/bingo.py:44 | the length of the digit run at the front of a text: every character before it is a digit and the next one is not |
| `PyText.DigitRuns` | api/bingo.py:44 | every run that `\d+` finds is non-empty and all digits, and there are no more runs than characters |
| `PyText.DigitRunsOfDigits` | api/bingo.py:44 | a text made only of digits is one single run |
| `PyText.RunLengthStopsAtSeparator` | api/bingo.py:44 | a non-digit after a text ends the run at its front |
| `PyText.DigitRunsSplit` | api/bingo.py:44 | a non-digit separates runs: the runs of `a + [c] + b` are the runs of `a` followed by the runs of `b` |
| `PyText.TrimStart` | api/bingo.py:38 | the index where the white space `int()` skips ends: every character before it (from the start index on) is such white space, and the character at it is not |
| `PyText.TrimEnd` | api/bingo.py:38 | the index where the trailing white space `int()` skips begins: every character from it on is such white space, and the character before it is not |
| `PyText.Trim` | api/bingo.py:38 | the text `int()` reads neither starts nor ends with white space it skips |
| `PyText.GroupsValueOfDigits` | api/bingo.py:38 | without underscores, the value `int()` gives for grouped digits is the plain decimal value, and every character counts towards the 4300-digit limit |
| `PyText.ParseInt` | api/bingo.py:38 | when `int(s)` succeeds, the text without its skipped white space is non-empty, ends with a digit and starts with a digit or a sign |
| `PyText.ParseStripped` | api/bingo.py:38 | when `int()` accepts a text it is a sign or digit followed by digits; a negative value needs a leading `-`, and a leading `-` never gives a positive value |
| `PyText.ParseUnsigned` | api/bingo.py:38-44 | accepted digit groups start and end with a digit; a plain digit string is accepted exactly when it is non-empty and has at most 4300 digits, and then reads as its decimal value |
| `PyText.DigitRunParses` | api/bingo.py:44 | `int()` of a non-empty digit run found by `\d+` is its decimal value when the run has at most 4300 digits, and raises otherwise |
| `PyText.IntSpaceExamples` | api/bingo.py:38 | `int(" 5\n")` is 5, while `int("\x1c5")` raises: U+001C is white space to `str.isspace()` but not to `int()` |
| `PyText.DigitChar` | api/bingo.py:38 | the character written for a digit is an ASCII digit that reads back as that digit |
| `PyText.NatToString` | api/bingo.py:38 | the decimal text of a non-negative integer is a non-empty string of ASCII digits |
| `PyText.NatToStringValue` | api/bingo.py:38 | the decimal value of that text is the integer |
| `PyText.IntToString` | api/bingo.py:38 | the decimal text of an integer starts with `-` exactly when it is negative, and the rest is the text of its magnitude |
| `PyText.StrOfInt` | api/bingo.py:38 | `str(n)` succeeds exactly when `n` has at most 4300 digits, and is then the decimal text of `n` |
| `PyText.TrimNoSpace` | api/bingo.py:38 | a text with no skipped white space at either end is read by `int()` as it stands |
| `PyText.ParseDigits` | api/bingo.py:38 | `int()` reads a string of at most 4300 digits as its decimal value |
| `PyText.ParseNegatedDigits` | api/bingo.py:38 | `int()` reads a minus sign before a string of at most 4300 digits as the negated decimal value |
| `PyText.NatToStringParses` | api/bingo.py:38 | the text of a non-negative integer of at most 4300 digits has no skipped white space at its ends and reads back as that integer |
| `PyText.NegatedParses` | api/bingo.py:38 | `-` followed by such a text ends without skipped white space and reads back as the negated integer |
| `PyText.IntToStringParses` | api/bingo.py:38 | the text of an integer of at most 4300 digits is non-empty, has no skipped white space at either end, and its sign and digits read back as the integer |
| `PyText.IntToStringRoundTrip` | api/bingo.py:38 | whenever `str(n)` succeeds, `int(str(n)) == n` |
| `PyText.Prefix` | api/bingo.py:38 | `s[:n]` is the first `min(n, len(s))` elements of `s` |
| `PyText.ReplaceChar` | api/bingo.py:38 | `replace` keeps the length and swaps exactly the occurrences of the character |
| `DrawParsers.PyStr` | api/bingo.py:38 | `str()` of a JSON string is the string itself; `str()` of a JSON integer, when it succeeds, reads back through `int()` as the same integer |
| `DrawParsers.PyInt` | api/bingo.py:38 | `int()` of a JSON integer is the integer; of a JSON string of digits it is the decimal value when there are at most 4300 digits, and it raises otherwise |
| `DrawParsers.PyInts` | api/bingo.py:38 | `[int(x) for x in xs]` succeeds exactly when every conversion does; it then holds each converted value, in order |
| `DrawParsers.OpenTimeText` | api/bingo.py:38 | the time is the first 16 characters of `openTime` (all of it when shorter), with every `T` made a space; it holds no `T` |
| `DrawParsers.OfficialRecord` | api/bingo.py:38 | a JSON element maps to a record exactly when it is well formed and `str(period)` and all the number conversions succeed; the record holds `str(period)`, the time text and the converted numbers |
| `DrawParsers.OfficialRecordList` | api/bingo.py:38 | the comprehension succeeds exactly when every element maps; the records then correspond one to one, in order |
| `DrawParsers.ParseOfficial` | api/bingo.py:38 | the official parser never returns more than 20 records |
| `DrawParsers.ParseOfficialSpec` | api/bingo.py:38 | a missing `content` gives no records; otherwise the parser keeps the first `min(20, n)` elements in order; only those can make it raise; each record keeps `str(period)` and the time text |
| `DrawParsers.InRangeValues` | api/bingo.py:44 | every value kept is in [1, 80], and no more values are kept than runs were found |
| `DrawParsers.InRangeValuesAppend` | api/bingo.py:44 | filtering keeps order: the values kept from two run lists are those of each, one after the other |
| `DrawParsers.InRangeValuesOne` | api/bingo.py:44 | a single run is kept, as its value, exactly when `1 <= int(n) <= 80`; together with `InRangeValuesAppend` this fixes the kept values as the in-range run values in run order |
| `DrawParsers.RowNumbers` | api/bingo.py:44 | every number taken from a row is in [1, 80] |
| `DrawParsers.RowNumbersOfRun` | api/bingo.py:44 | a row text that is one digit run gives its value when it is in [1, 80] and nothing otherwise; with `DigitRunsSplit` and `RowNumbersExtend` this fixes a row's numbers as its in-range run values in text order |
| `DrawParsers.RowNumbersExtend` | api/bingo.py:44-47 | text appended after a separator only adds numbers after those already found, so the first 20 are unchanged |
| `DrawParsers.FirstIdFrom` | api/bingo.py:45 | finds a match of `11[0-9]{7}` exactly when one exists, and returns the leftmost |
| `DrawParsers.FirstId` | api/bingo.py:45 | a draw id found is nine ASCII digits starting with `11` |
| `DrawParsers.ParseRow` | api/bingo.py:43-47 | only a row whose text contains `期` is scanned: a row without it neither raises nor yields a record |
| `DrawParsers.ParseRowCases` | api/bingo.py:43-47 | a row's scan raises exactly when it contains `期` and a digit run has more than 4300 digits; otherwise the row yields a record exactly when it contains `期`, has at least 20 in-range numbers and an id matches; the record is the first id, the placeholder `已開獎` and the first 20 numbers |
| `DrawParsers.ParseRowWellFormed` | api/bingo.py:43-47 | a record a row yields has exactly 20 numbers in [1, 80], a nine-digit id starting with `11`, and the placeholder time |
| `DrawParsers.Collect` | api/bingo.py:41-47 | the row loop over parsed rows keeps no more records than there are rows |
| `DrawParsers.RowParses` | api/bingo.py:41-43 | one parse per row, in row order |
| `DrawParsers.HtmlScrape` | api/bingo.py:41-47 | the row loop appends no more records than there are rows |
| `DrawParsers.CollectRaises` | api/bingo.py:41-47 | the loop is left by an exception exactly when one of the rows raises |
| `DrawParsers.CollectKept` | api/bingo.py:46-47 | every record the loop appends is the record of one of the rows |
| `DrawParsers.CollectAppend` | api/bingo.py:41-47 | over two lists of rows, the second is reached only when the first does not raise, and its records follow those of the first |
| `DrawParsers.HtmlScrapeRaises` | api/bingo.py:41-47 | the HTML row loop raises exactly when one of its rows does |
| `DrawParsers.HtmlScrapeWellFormed` | api/bingo.py:41-47 | every record the row loop appends, also before a raise, has exactly 20 numbers in [1, 80], a nine-digit id starting with `11`, and the placeholder time |
| `DrawParsers.HtmlScrapeAppend` | api/bingo.py:41-47 | the row loop over two row lists: the second list is reached only when the first does not raise, and its records follow |
| `DrawParsers.HtmlScrapeOfOneRow` | api/bingo.py:43-47 | a single row raises, contributes nothing, or contributes its record |
| `DrawParsers.HtmlScrapeStep` | api/bingo.py:41-47 | one more row after rows that did not raise either ends the loop with the records so far, or adds nothing, or adds its record at the end |
| `DrawParsers.ScrapeRows` | api/bingo.py:41-47 | the row loop appends to the existing data exactly the records of the qualifying rows before the first row that raises, in row order, and reports whether a row raised |
| `Aggregator.Attempt` | api/bingo.py:34-53 | a raised request or a status other than 200 leaves the list as it was; the official parser either leaves it (when it raises) or replaces it with at most 20 records; the HTML loop only appends; a strategy stops the sweep only with a non-empty list, and an HTML one exactly when its loop did not raise |
| `Aggregator.FoundWhenYields` | api/bingo.py:36-51 | a strategy that yields records on its own without raising stops the sweep whatever the earlier strategies left |
| `Aggregator.HarvestAt` | api/bingo.py:38 | an official strategy on its own yields at most 20 records |
| `Aggregator.SweepFrom` | api/bingo.py:33-59 | `success` is true exactly when the reply carries records, and a reply without records names no source |
| `Aggregator.FetchDraws` | api/bingo.py:23-60 | the handler's reply is the sweep of the strategies in list order, carrying the list of records from one strategy to the next and stopping at the first that gets past its parser with records |
| `Aggregator.ReplyConsistent` | api/bingo.py:49-59 | when no row loop raises, `source` is `無` exactly when the reply carries no records |
| `Aggregator.EmptyWhenAllFail` | api/bingo.py:33-53 | the reply has no records when every strategy fails or yields nothing, and, when no row loop raises, only then |
| `Aggregator.FirstSuccessWins` | api/bingo.py:33-51 | when no row loop raises, a non-empty reply holds the records of the first strategy that yields any, and `source` is that strategy's type |
| `Aggregator.LaterStrategiesIgnored` | api/bingo.py:49-51 | outcomes of strategies after one that yields records without raising have no influence on the reply |
| `Aggregator.AllFail` | api/bingo.py:30-59 | when every strategy yields nothing the reply is `success = false`, `source = 無` and no data |
| `Aggregator.AttemptKeepsScraped` | api/bingo.py:36-51 | an HTML strategy, or any strategy that does not stop the sweep, keeps a list of scraped records made only of scraped records |
| `Aggregator.HtmlSourcedWellFormed` | api/bingo.py:39-50 | when the source is `html_big5`, every record has 20 numbers in [1, 80], a nine-digit id starting with `11` and the placeholder time, even with records left by an earlier raising row loop |
| `Aggregator.OfficialSourcedAtMost20` | api/bingo.py:37-51 | when the source is `official`, there are at most 20 records |
| `Aggregator.EmptyContentClears` | api/bingo.py:37-59 | records left by a raising row loop are wiped by a later official answer whose `content` gives no elements (`""` or `[]`): with the last request raising, the reply is `success = false`, `無` and no data |
| `Aggregator.LeftoverAfterRaise` | api/bingo.py:44-59 | when the first request raises, the second strategy's row loop appends records and then raises, and the last two requests raise, the reply is `success = true` with `source = 無` and those records |

## Left out

- Streamlit is not modelled: widgets, layout, metrics, the results dataframe,
  the error and success banners, `st.rerun`, and the 60-second
  `st.cache_data` cache with its `.clear()`. The widgets' ranges appear as the
  `FromWidgets` predicate and the `playStar in PrizeTable` requirement.
- `fetch_latest_draws` is not modelled. Its scraping is commented out and it
  returns a constant map. Its first draw serves as the `SampleWinning` fixture.
- Display formatting is not modelled (`zfill`, `f"${x:,}"`, the joined number
  lists). A row keeps the matched numbers as a set.
- The network is an input. `requests.get`, headers, timeouts, CORS,
  `send_response` and writing the JSON reply are left out.
- BeautifulSoup and the Big5 decoding are treated as unable to raise once a
  response has arrived: the decoding ignores errors, and BeautifulSoup is
  lenient. Within the HTML branch only the row scan's `int()` calls raise.
- `BeautifulSoup`, the Big5 decoding and `res.json()` are inputs, not
  computations. Each `Answered` outcome carries their results.
- `\d` is modelled as the ASCII and full-width digits, the only decimal digits
  Big5 can encode. Other Unicode digits reachable through HTML character
  references are not modelled.
- PyText.ParseInt: the model accepts the white space `int()` skips (ASCII
  space, tab, line feed, vertical tab, form feed and carriage return, and the
  characters above U+007F that `str.isspace()` reports), a sign, digits with
  single underscores, and at most 4300 digits. It leaves out decimal digits of
  scripts other than ASCII and full-width, which Python's `int()` also reads.
- The 4300-digit limit is Python's default. A program that changes it with
  `sys.set_int_max_str_digits` is not modelled.
- DrawParsers.PyStr, DrawParsers.PyInt: JSON values other than integers and
  strings are not modelled, for `period` and for the entries of
  `drawNumberSize` (floats, booleans, null, arrays, objects). A string
  `drawNumberSize` stands for its characters, each a one-character string, and
  an object one for its keys; one that cannot be iterated makes its element a
  `BadRecord`. A string `content` stands for its characters, each a
  `BadRecord`, so `""` is `Document(Some([]))`: it gives no records without
  raising. Only a `content` that cannot be sliced (an object, a number, a
  boolean, null) counts as `Undecodable`.
- The promotion is integer arithmetic `(3 * b) / 2` on positive `b`, not a
  float product. For these table values the float product is exact, so the two
  agree.
- `datetime.now()` and the unused imports (`random`, `timedelta`, `time`) are
  not modelled.

=== FILE: aggregator.dfy ===
/**
 * The draw service's request handler: four fetch strategies tried in order
 * over one shared list of records, the first one that gets past its parser
 * with records in the list wins, and the response carries the records,
 * whether there are any and which kind of source gave them.
 * The network is an input: one outcome per strategy.
 */
module Aggregator {
  import opened Wrappers
  import opened DrawParsers

  /** Which parser reads the response of a strategy. */
  datatype Kind = Official | HtmlBig5

  datatype Strategy = Strategy(url: string, kind: Kind)

  const UrlOfficial: string := "https://api.taiwanlottery.com/TLCAPIWeB/Lottery/BingoResult"
  const UrlPilio: string := "https://www.pilio.idv.tw/bingo/list.asp"
  /** `urllib.parse.quote(UrlPilio)`: only the `:` is escaped. */
  const UrlPilioQuoted: string := "https%3A//www.pilio.idv.tw/bingo/list.asp"

  /** The strategies in priority order: the official API through a proxy, the
      HTML list through the same proxy, the official API directly, the HTML list
      through a second proxy. */
  const Strategies: seq<Strategy> := [
    Strategy("https://api.codetabs.com/v1/proxy?quest=" + UrlOfficial, Official),
    Strategy("https://api.codetabs.com/v1/proxy?quest=" + UrlPilio, HtmlBig5),
    Strategy(UrlOfficial, Official),
    Strategy("https://api.allorigins.win/raw?url=" + UrlPilioQuoted, HtmlBig5)
  ]

  /** The `type` label a strategy reports as its source. */
  function Label(kind: Kind): string {
    match kind
    case Official => "official"
    case HtmlBig5 => "html_big5"
  }

  /** The source reported when no strategy gave records. */
  const NoSource: string := "無"

  /** The response body of a request, as each parser would read it: decoded as
      JSON, and as the texts of the `tr` rows of the Big5-decoded page. */
  datatype Body = Body(json: JsonBody, rows: seq<string>)

  /** What the request of one strategy came to: it raised (timeout, connection
      error), or it answered with a status code and a body. */
  datatype Outcome = Raised | Answered(status: int, body: Body)

  /** The reply of the handler. */
  datatype Reply = Reply(success: bool, source: string, data: seq<DrawRecord>)

  /** What one strategy leaves behind: the list of records as it now stands,
      and whether the sweep stops here. */
  datatype Step = Step(data: seq<DrawRecord>, found: bool)

  /** Whether the request of an HTML strategy succeeded and its row loop was
      left by an exception, with the records of the earlier rows appended. */
  predicate ScrapeRaised(kind: Kind, outcome: Outcome) {
    && kind == HtmlBig5 && outcome.Answered? && outcome.status == 200
    && HtmlScrape(outcome.body.rows).raised
  }

  /** One strategy, given the records `data` left by the earlier ones. A raised
      request, a status other than 200 or an official parse that raises leave
      `data` as it is and move on; an official parse replaces `data`; the HTML
      row loop appends to it, and moves on when one of its rows raises. A
      strategy that gets past its parser stops the sweep when `data` is not
      empty. */
  function Attempt(kind: Kind, outcome: Outcome, data: seq<DrawRecord>): (s: Step)
    ensures s.found ==> s.data != []
    ensures outcome.Raised? || outcome.status != 200 ==> s == Step(data, false)
    ensures kind == Official ==>
      (s == Step(data, false)) || (|s.data| <= 20 && (s.found <==> s.data != []))
    ensures kind == HtmlBig5 ==> |data| <= |s.data| && s.data[..|data|] == data
    ensures kind == HtmlBig5 && outcome.Answered? && outcome.status == 200 ==>
      (s.found <==> !HtmlScrape(outcome.body.rows).raised && s.data != [])
  {
    match outcome
    case Raised => Step(data, false)
    case Answered(status, body) =>
      if status != 200 then Step(data, false)
      else match kind
        case Official =>
          (match ParseOfficial(body.json)
           case None => Step(data, false)
           case Some(recs) => Step(recs, recs != []))
        case HtmlBig5 =>
          var scrape := HtmlScrape(body.rows);
          var appended := data + scrape.records;
          Step(appended, !scrape.raised && appended != [])
  }

  /** A strategy that yields records on its own, and whose parser does not
      raise, stops the sweep wherever the sweep reaches it. */
  lemma FoundWhenYields(kind: Kind, outcome: Outcome, data: seq<DrawRecord>)
    requires Attempt(kind, outcome, []).data != []
    requires !ScrapeRaised(kind, outcome)
    ensures Attempt(kind, outcome, data).found
  {
    if kind == HtmlBig5 {
      var recs := HtmlScrape(outcome.body.rows).records;
      assert [] + recs == recs;
    }
  }

  /** The records strategy `k` yields when it starts from an empty list. */
  function HarvestAt(outcomes: seq<Outcome>, k: nat): (recs: seq<DrawRecord>)
    requires |outcomes| == |Strategies| && k < |Strategies|
    ensures Strategies[k].kind == Official ==> |recs| <= 20
  {
    Attempt(Strategies[k].kind, outcomes[k], []).data
  }

  /** The reply of a sweep that starts at strategy `i` with the records `data`
      left by the earlier strategies. */
  function SweepFrom(outcomes: seq<Outcome>, i: nat, data: seq<DrawRecord>): (r: Reply)
    requires |outcomes| == |Strategies| && i <= |Strategies|
    ensures r.success <==> r.data != []
    ensures r.data == [] ==> r.source == NoSource
    decreases |Strategies| - i
  {
    if i == |Strategies| then Reply(data != [], NoSource, data)
    else
      var step := Attempt(Strategies[i].kind, outcomes[i], data);
      if step.found then Reply(true, Label(Strategies[i].kind), step.data)
      else SweepFrom(outcomes, i + 1, step.data)
  }

  /** The handler: tries the strategies in order and stops at the first that
      gets past its parser with records in hand. */
  method FetchDraws(outcomes: seq<Outcome>) returns (reply: Reply)
    requires |outcomes| == |Strategies|
    ensures reply == SweepFrom(outcomes, 0, [])
  {
    var parsedData: seq<DrawRecord> := [];
    var source := NoSource;
    var i := 0;
    while i < |Strategies|
      invariant 0 <= i <= |Strategies|
      invariant source == NoSource
      invariant SweepFrom(outcomes, 0, []) == SweepFrom(outcomes, i, parsedData)
    {
      var strat := Strategies[i];
      var outcome := outcomes[i];
      if outcome.Answered? && outcome.status == 200 {
        if strat.kind == Official {
          var mapped := ParseOfficial(outcome.body.json);
          if mapped.None? {
            // the parse raised: move on to the next strategy
            i := i + 1;
            continue;
          }
          parsedData := mapped.value;
        } else {
          var raised;
          parsedData, raised := ScrapeRows(parsedData, outcome.body.rows);
          if raised {
            // a row raised: move on, keeping what was appended
            i := i + 1;
            continue;
          }
        }
        if parsedData != [] {
          source := Label(strat.kind);
          break;
        }
      }
      i := i + 1;
    }
    reply := Reply(|parsedData| > 0, source, parsedData);
  }

  /** No HTML strategy from `i` on has its row loop raise. */
  predicate Clean(outcomes: seq<Outcome>, i: nat)
    requires |outcomes| == |Strategies|
  {
    forall k :: i <= k < |Strategies| ==> !ScrapeRaised(Strategies[k].kind, outcomes[k])
  }

  /** A sweep that starts from an empty list keeps it empty while the strategies
      yield nothing; when no row loop raises, the reply names no source exactly
      when it carries no records. */
  lemma {:induction false} ReplyConsistent(outcomes: seq<Outcome>, i: nat)
    requires |outcomes| == |Strategies| && i <= |Strategies|
    requires Clean(outcomes, i)
    ensures var r := SweepFrom(outcomes, i, []);
      r.source == NoSource <==> r.data == []
    decreases |Strategies| - i
  {
    if i < |Strategies| {
      var step := Attempt(Strategies[i].kind, outcomes[i], []);
      if !step.found {
        assert step.data == [];
        ReplyConsistent(outcomes, i + 1);
      }
    }
  }

  /** The reply is empty when every strategy from `i` on yields nothing, and,
      when no row loop raises, only then. */
  lemma {:induction false} EmptyWhenAllFail(outcomes: seq<Outcome>, i: nat)
    requires |outcomes| == |Strategies| && i <= |Strategies|
    ensures (forall k :: i <= k < |Strategies| ==> HarvestAt(outcomes, k) == [])
        ==> SweepFrom(outcomes, i, []).data == []
    ensures Clean(outcomes, i) && SweepFrom(outcomes, i, []).data == []
        ==> forall k :: i <= k < |Strategies| ==> HarvestAt(outcomes, k) == []
    decreases |Strategies| - i
  {
    if i < |Strategies| && HarvestAt(outcomes, i) == [] {
      EmptyWhenAllFail(outcomes, i + 1);
    }
  }

  /** First success wins: when no row loop raises, a non-empty reply holds the
      records of the first strategy from `i` on that yields any, labelled with
      that strategy's kind. */
  lemma {:induction false} FirstSuccessWins(outcomes: seq<Outcome>, i: nat)
    requires |outcomes| == |Strategies| && i <= |Strategies|
    requires Clean(outcomes, i)
    ensures var r := SweepFrom(outcomes, i, []);
      r.data != [] ==> exists w :: (i <= w < |Strategies|
            && r.data == HarvestAt(outcomes, w)
            && r.source == Label(Strategies[w].kind)
            && forall k :: i <= k < w ==> HarvestAt(outcomes, k) == [])
    decreases |Strategies| - i
  {
    if i < |Strategies| && HarvestAt(outcomes, i) == [] {
      FirstSuccessWins(outcomes, i + 1);
    }
  }

  /** Strategies after one that yields records without raising are never
      consulted: changing their outcomes changes nothing in the reply, whatever
      the earlier strategies left behind. */
  lemma {:induction false} LaterStrategiesIgnored(outcomes: seq<Outcome>, other: seq<Outcome>, w: nat,
                                                  i: nat, data: seq<DrawRecord>)
    requires |outcomes| == |other| == |Strategies| && i <= w < |Strategies|
    requires HarvestAt(outcomes, w) != [] && !ScrapeRaised(Strategies[w].kind, outcomes[w])
    requires outcomes[..w + 1] == other[..w + 1]
    ensures SweepFrom(outcomes, i, data) == SweepFrom(other, i, data)
    decreases w - i
  {
    assert outcomes[i] == other[i] by {
      assert outcomes[..w + 1][i] == other[..w + 1][i];
    }
    if i == w {
      FoundWhenYields(Strategies[w].kind, outcomes[w], data);
    } else {
      var step := Attempt(Strategies[i].kind, outcomes[i], data);
      if !step.found {
        LaterStrategiesIgnored(outcomes, other, w, i + 1, step.data);
      }
    }
  }

  /** When every strategy yields nothing the reply is a failure with no records. */
  lemma AllFail(outcomes: seq<Outcome>)
    requires |outcomes| == |Strategies|
    requires forall k :: 0 <= k < |Strategies| ==> HarvestAt(outcomes, k) == []
    ensures SweepFrom(outcomes, 0, []) == Reply(false, NoSource, [])
  {
    EmptyWhenAllFail(outcomes, 0);
  }

  /** Whether every record has the shape of a scraped one. */
  predicate AllScraped(data: seq<DrawRecord>) {
    forall k :: 0 <= k < |data| ==> WellFormedScraped(data[k])
  }

  /** A strategy keeps the list made of scraped records when it is an HTML one
      or when it does not stop the sweep: an official parse that does not stop
      it left the list as it was or made it empty. */
  lemma AttemptKeepsScraped(kind: Kind, outcome: Outcome, data: seq<DrawRecord>)
    requires AllScraped(data)
    ensures var step := Attempt(kind, outcome, data);
      kind == HtmlBig5 || !step.found ==> AllScraped(step.data)
  {
    var step := Attempt(kind, outcome, data);
    if kind == HtmlBig5 && outcome.Answered? && outcome.status == 200 {
      var recs := HtmlScrape(outcome.body.rows).records;
      HtmlScrapeWellFormed(outcome.body.rows);
      assert step.data == data + recs;
      forall k | 0 <= k < |step.data|
        ensures WellFormedScraped(step.data[k])
      {
        if k >= |data| {
          assert step.data[k] == recs[k - |data|];
        }
      }
    }
  }

  /** Records reported under the HTML label all have 20 numbers in [1, 80], a
      nine-digit id starting with 11 and the placeholder time: the records an
      official parse produced are either reported at once or replaced. */
  lemma {:induction false} HtmlSourcedWellFormed(outcomes: seq<Outcome>, i: nat, data: seq<DrawRecord>)
    requires |outcomes| == |Strategies| && i <= |Strategies|
    requires AllScraped(data)
    ensures var r := SweepFrom(outcomes, i, data);
      r.source == Label(HtmlBig5) ==> AllScraped(r.data)
    decreases |Strategies| - i
  {
    if i < |Strategies| {
      var step := Attempt(Strategies[i].kind, outcomes[i], data);
      AttemptKeepsScraped(Strategies[i].kind, outcomes[i], data);
      if !step.found {
        HtmlSourcedWellFormed(outcomes, i + 1, step.data);
      }
    }
  }

  /** Records reported under the official label are at most 20. */
  lemma {:induction false} OfficialSourcedAtMost20(outcomes: seq<Outcome>, i: nat, data: seq<DrawRecord>)
    requires |outcomes| == |Strategies| && i <= |Strategies|
    ensures var r := SweepFrom(outcomes, i, data);
      r.source == Label(Official) ==> |r.data| <= 20
    decreases |Strategies| - i
  {
    if i < |Strategies| {
      var step := Attempt(Strategies[i].kind, outcomes[i], data);
      if !step.found {
        OfficialSourcedAtMost20(outcomes, i + 1, step.data);
      }
    }
  }

  /** Records left by a row loop that raised survive the strategies after it:
      when the first strategy's request raises, the second's row loop appends
      `partial` before a row raises and the last two requests raise, the reply
      is a success carrying `partial` with no source named. */
  lemma {:induction false} LeftoverAfterRaise(outcomes: seq<Outcome>, partial: seq<DrawRecord>)
    requires |outcomes| == |Strategies|
    requires outcomes[0] == Raised && outcomes[2] == Raised && outcomes[3] == Raised
    requires outcomes[1].Answered? && outcomes[1].status == 200
    requires HtmlScrape(outcomes[1].body.rows) == Scrape(partial, true)
    requires partial != []
    ensures SweepFrom(outcomes, 0, []) == Reply(true, NoSource, partial)
  {
    assert Strategies[1].kind == HtmlBig5;
    assert Attempt(HtmlBig5, outcomes[1], []) == Step(partial, false) by {
      assert [] + partial == partial;
    }
    assert SweepFrom(outcomes, 0, []) == SweepFrom(outcomes, 2, partial);
  }

  /** An official answer whose `content` has no elements (an empty array, or
      the empty string) replaces the list with an empty one without raising: it
      wipes records left by an earlier raising row loop, and with the last
      request raising the reply is a failure. */
  lemma {:induction false} EmptyContentClears(outcomes: seq<Outcome>, partial: seq<DrawRecord>, rows: seq<string>)
    requires |outcomes| == |Strategies|
    requires outcomes[0] == Raised && outcomes[3] == Raised
    requires outcomes[1].Answered? && outcomes[1].status == 200
    requires HtmlScrape(outcomes[1].body.rows) == Scrape(partial, true)
    requires outcomes[2] == Answered(200, Body(Document(Some([])), rows))
    ensures SweepFrom(outcomes, 0, []) == Reply(false, NoSource, [])
  {
    assert Strategies[1].kind == HtmlBig5 && Strategies[2].kind == Official;
    assert Attempt(HtmlBig5, outcomes[1], []) == Step(partial, false) by {
      assert [] + partial == partial;
    }
    assert ParseOfficial(Document(Some([]))) == Some([]);
    assert SweepFrom(outcomes, 0, []) == SweepFrom(outcomes, 3, []);
  }
}

=== FILE: parsers.dfy ===
/**
 * The two parsers of the draw service: the mapping of the lottery's own JSON
 * records and the scan of the text of each HTML table row.
 */
module DrawParsers {
  import opened Wrappers
  import opened PyText

  /** One normalised draw as the service returns it. */
  datatype DrawRecord = DrawRecord(drawId: string, time: string, numbers: seq<int>)

  // ---------------------------------------------------------------------------
  // The official JSON parser
  // ---------------------------------------------------------------------------

  /** A JSON scalar as `res.json()` decodes it: an integer or a string. */
  datatype Scalar = JInt(n: int) | JStr(s: string)

  /** One element of `content`: an object carrying `period`, `openTime` (a
      string) and `drawNumberSize`, whose entries are what iterating over it
      yields: the elements of an array, the characters of a string (each a
      one-character `JStr`), the keys of an object (each a `JStr`).
      `BadRecord` is any element on which reading those keys raises: not an
      object, a key missing, `openTime` not a string, or a `drawNumberSize` that
      cannot be iterated (a number, a boolean, null). */
  datatype JsonRecord =
    | Record(period: Scalar, openTime: string, drawNumberSize: seq<Scalar>)
    | BadRecord

  /** The decoded response body: `Undecodable` when `res.json().get(...)` or the
      slicing of `content` raises (a `content` that is an object, a number, a
      boolean or null); otherwise the elements of the `content` member, if
      present. A string `content` slices and iterates as its characters, each of
      which is a `BadRecord`, so `""` is `Document(Some([]))`. */
  datatype JsonBody = Undecodable | Document(content: Option<seq<JsonRecord>>)

  /** `str(x)`: None where Python raises. A string is kept as it is; an
      integer's text reads back as the integer. */
  function PyStr(x: Scalar): (r: Option<string>)
    ensures x.JStr? ==> r == Some(x.s)
    ensures x.JInt? && r.Some? ==> PyInt(JStr(r.value)) == Some(x.n)
  {
    match x
    case JInt(n) => IntToStringRoundTrip(n); StrOfInt(n)
    case JStr(s) => Some(s)
  }

  /** `int(x)`: None where Python raises. An integer converts to itself; a text
      of digits converts to its decimal value unless it is too long. */
  function PyInt(x: Scalar): (r: Option<int>)
    ensures x.JInt? ==> r == Some(x.n)
    ensures x.JStr? && x.s != [] && AllDigits(x.s) ==>
      r == if |x.s| <= MaxStrDigits then Some(DecimalValue(x.s) as int) else None
  {
    match x
    case JInt(n) => Some(n)
    case JStr(s) => DigitRunParses(s); ParseInt(s)
  }

  /** `[int(x) for x in xs]`: None as soon as one conversion raises. */
  function PyInts(xs: seq<Scalar>): (r: Option<seq<int>>)
    ensures r.Some? <==> forall k :: 0 <= k < |xs| ==> PyInt(xs[k]).Some?
    ensures r.Some? ==> (|r.value| == |xs|
      && forall k :: 0 <= k < |xs| ==> PyInt(xs[k]) == Some(r.value[k]))
  {
    if xs == [] then Some([])
    else match (PyInt(xs[0]), PyInts(xs[1..]))
      case (Some(v), Some(vs)) => Some([v] + vs)
      case _ => None
  }

  /** `openTime[:16].replace('T', ' ')`. */
  function OpenTimeText(openTime: string): (r: string)
    ensures |r| == if |openTime| < 16 then |openTime| else 16
    ensures 'T' !in r
    ensures forall k :: 0 <= k < |r| ==> r[k] == if openTime[k] == 'T' then ' ' else openTime[k]
  {
    ReplaceChar(Prefix(openTime, 16), 'T', ' ')
  }

  /** The record built from one JSON element, or None when building it raises. */
  function OfficialRecord(rec: JsonRecord): (r: Option<DrawRecord>)
    ensures r.Some? <==> rec.Record? && PyStr(rec.period).Some? && PyInts(rec.drawNumberSize).Some?
    ensures r.Some? ==> (r.value.drawId == PyStr(rec.period).value
      && r.value.time == OpenTimeText(rec.openTime)
      && r.value.numbers == PyInts(rec.drawNumberSize).value)
  {
    match rec
    case BadRecord => None
    case Record(period, openTime, drawNumberSize) =>
      match (PyStr(period), PyInts(drawNumberSize))
      case (Some(drawId), Some(numbers)) => Some(DrawRecord(drawId, OpenTimeText(openTime), numbers))
      case _ => None
  }

  /** The list comprehension over the records: None as soon as one raises. */
  function OfficialRecordList(recs: seq<JsonRecord>): (r: Option<seq<DrawRecord>>)
    ensures r.Some? <==> forall k :: 0 <= k < |recs| ==> OfficialRecord(recs[k]).Some?
    ensures r.Some? ==> (|r.value| == |recs|
      && forall k :: 0 <= k < |recs| ==> OfficialRecord(recs[k]) == Some(r.value[k]))
  {
    if recs == [] then Some([])
    else match (OfficialRecord(recs[0]), OfficialRecordList(recs[1..]))
      case (Some(d), Some(ds)) => Some([d] + ds)
      case _ => None
  }

  /** The official parser: the first 20 elements of `content` (none when the key
      is missing), each mapped to a record; None when the parse raises. */
  function ParseOfficial(body: JsonBody): (r: Option<seq<DrawRecord>>)
    ensures r.Some? ==> |r.value| <= 20
  {
    match body
    case Undecodable => None
    case Document(content) => OfficialRecordList(Prefix(content.GetOr([]), 20))
  }

  /** The official parser keeps the first 20 records in order, each keeping its
      period as text and the first 16 characters of its time with `T` made a
      space; only those 20 can make it raise, and a body without `content`
      gives no records. */
  lemma ParseOfficialSpec(content: seq<JsonRecord>)
    ensures ParseOfficial(Document(None)) == Some([])
    ensures var r := ParseOfficial(Document(Some(content)));
      var n := if |content| < 20 then |content| else 20;
      && (r.Some? <==> forall k :: 0 <= k < n ==> OfficialRecord(content[k]).Some?)
      && (r.Some? ==> |r.value| == n && forall k :: 0 <= k < n ==>
            && content[k].Record? && PyStr(content[k].period).Some?
            && r.value[k].drawId == PyStr(content[k].period).value
            && r.value[k].time == OpenTimeText(content[k].openTime))
  {
    var n := if |content| < 20 then |content| else 20;
    var taken := Prefix(content, 20);
    assert forall k :: 0 <= k < n ==> taken[k] == content[k];
  }

  // ---------------------------------------------------------------------------
  // The HTML row parser
  // ---------------------------------------------------------------------------

  /** The character that marks a row about a draw period. */
  const PeriodMark: char := '期'

  /** The time stored for a scraped record. */
  const DrawnPlaceholder: string := "已開獎"

  /** Whether every run is short enough for `int()`: the comprehension over the
      runs raises as soon as it meets a run of more than `MaxStrDigits` digits. */
  predicate RunsConvert(runs: seq<string>) {
    forall k :: 0 <= k < |runs| ==> |runs[k]| <= MaxStrDigits
  }

  /** `[int(n) for n in runs if 1 <= int(n) <= 80]` on runs that convert. */
  function InRangeValues(runs: seq<string>): (nums: seq<int>)
    requires forall k :: 0 <= k < |runs| ==> AllDigits(runs[k])
    ensures |nums| <= |runs|
    ensures forall k :: 0 <= k < |nums| ==> 1 <= nums[k] <= 80
  {
    if runs == [] then []
    else
      var v := DecimalValue(runs[0]);
      (if 1 <= v <= 80 then [v] else []) + InRangeValues(runs[1..])
  }

  /** The kept values of a run list are those of its parts, in order. */
  lemma {:induction false} InRangeValuesAppend(a: seq<string>, b: seq<string>)
    requires forall k :: 0 <= k < |a| ==> AllDigits(a[k])
    requires forall k :: 0 <= k < |b| ==> AllDigits(b[k])
    ensures InRangeValues(a + b) == InRangeValues(a) + InRangeValues(b)
  {
    if a == [] {
      assert a + b == b;
    } else {
      assert (a + b)[1..] == a[1..] + b;
      InRangeValuesAppend(a[1..], b);
    }
  }

  /** A single run is kept exactly when its value is in [1, 80]. */
  lemma InRangeValuesOne(r: string)
    requires AllDigits(r)
    ensures InRangeValues([r]) == if 1 <= DecimalValue(r) <= 80 then [DecimalValue(r) as int] else []
  {
    assert [r][1..] == [];
  }

  /** The values in [1, 80] of the digit runs of a row, in text order. */
  function RowNumbers(text: string): (nums: seq<int>)
    ensures forall k :: 0 <= k < |nums| ==> 1 <= nums[k] <= 80
  {
    InRangeValues(DigitRuns(text))
  }

  /** A row text that is one digit run gives its value when that is in [1, 80],
      and nothing otherwise. */
  lemma RowNumbersOfRun(d: string)
    requires d != [] && AllDigits(d)
    ensures RowNumbers(d) == if 1 <= DecimalValue(d) <= 80 then [DecimalValue(d) as int] else []
  {
    DigitRunsOfDigits(d);
    InRangeValuesOne(d);
  }

  /** Whether `11[0-9]{7}` matches at position `i`. */
  predicate IdAt(text: string, i: nat) {
    i + 9 <= |text| && text[i] == '1' && text[i + 1] == '1'
    && forall k :: i + 2 <= k < i + 9 ==> IsAsciiDigit(text[k])
  }

  /** The first match of `11[0-9]{7}` at or after position `from`. */
  function FirstIdFrom(text: string, from: nat): (r: Option<string>)
    ensures r.None? <==> forall i :: from <= i ==> !IdAt(text, i)
    ensures r.Some? ==> exists i :: (from <= i && IdAt(text, i) && r.value == text[i..i + 9]
      && forall j :: from <= j < i ==> !IdAt(text, j))
    decreases |text| - from
  {
    if from + 9 > |text| then None
    else if IdAt(text, from) then Some(text[from..from + 9])
    else FirstIdFrom(text, from + 1)
  }

  /** `re.findall(r'11[0-9]{7}', text)[0]`, if there is a match: the leftmost. */
  function FirstId(text: string): (r: Option<string>)
    ensures r.Some? ==> (|r.value| == 9 && r.value[..2] == "11"
      && forall k :: 0 <= k < 9 ==> IsAsciiDigit(r.value[k]))
  {
    FirstIdFrom(text, 0)
  }

  /** What the body of the row loop does with one row: the `int()` calls raise,
      the row is passed over, or it yields a record. */
  datatype RowParse = RowRaised | RowSkipped | RowKept(record: DrawRecord)

  /** The row parse. Only a row containing `期` is scanned. */
  function ParseRow(text: string): (r: RowParse)
    ensures !r.RowSkipped? ==> PeriodMark in text
  {
    if PeriodMark !in text then RowSkipped
    else if !RunsConvert(DigitRuns(text)) then RowRaised
    else
      var nums := RowNumbers(text);
      var drawIds := FirstId(text);
      if |nums| >= 20 && drawIds.Some? then RowKept(DrawRecord(drawIds.value, DrawnPlaceholder, nums[..20]))
      else RowSkipped
  }

  /** A row is scanned only when it contains `期`; its scan raises exactly when a
      digit run is too long for `int()`, and otherwise it yields a record exactly
      when it holds at least 20 numbers in [1, 80] and a draw id: the first 20
      such numbers and the leftmost id. */
  lemma ParseRowCases(text: string)
    ensures var r := ParseRow(text);
      && (r.RowRaised? <==> PeriodMark in text && !RunsConvert(DigitRuns(text)))
      && (r.RowKept? <==> (PeriodMark in text && RunsConvert(DigitRuns(text))
            && |RowNumbers(text)| >= 20 && FirstId(text).Some?))
      && (r.RowKept? ==> (r.record.numbers == RowNumbers(text)[..20]
            && r.record.drawId == FirstId(text).value
            && r.record.time == DrawnPlaceholder))
  {
  }

  /** The shape every scraped record has. */
  predicate WellFormedScraped(d: DrawRecord) {
    && |d.numbers| == 20
    && (forall k :: 0 <= k < 20 ==> 1 <= d.numbers[k] <= 80)
    && |d.drawId| == 9 && d.drawId[..2] == "11"
    && (forall k :: 0 <= k < 9 ==> IsAsciiDigit(d.drawId[k]))
    && d.time == DrawnPlaceholder
  }

  /** A record the row parser keeps has exactly 20 numbers, each in [1, 80], a
      nine-digit id starting with 11 and the placeholder time. */
  lemma ParseRowWellFormed(text: string)
    ensures ParseRow(text).RowKept? ==> WellFormedScraped(ParseRow(text).record)
  {
    var r := ParseRow(text);
    if r.RowKept? {
      var nums := RowNumbers(text);
      assert r.record.numbers == nums[..20];
      assert forall k :: 0 <= k < 20 ==> r.record.numbers[k] == nums[k];
    }
  }

  /** What the row loop leaves behind: the records appended, and whether it was
      left by an exception. */
  datatype Scrape = Scrape(records: seq<DrawRecord>, raised: bool)

  /** The row loop over rows already parsed: the records of the kept rows, in
      row order, up to the first row that raised. */
  function Collect(parses: seq<RowParse>): (s: Scrape)
    ensures |s.records| <= |parses|
  {
    if parses == [] then Scrape([], false)
    else
      var rest := Collect(parses[1..]);
      match parses[0]
      case RowRaised => Scrape([], true)
      case RowSkipped => rest
      case RowKept(d) => Scrape([d] + rest.records, rest.raised)
  }

  /** The parse of each row, in row order. */
  function RowParses(rows: seq<string>): (ps: seq<RowParse>)
    ensures |ps| == |rows|
    ensures forall k :: 0 <= k < |rows| ==> ps[k] == ParseRow(rows[k])
  {
    if rows == [] then [] else [ParseRow(rows[0])] + RowParses(rows[1..])
  }

  /** The row loop over `rows`. */
  function HtmlScrape(rows: seq<string>): (s: Scrape)
    ensures |s.records| <= |rows|
  {
    Collect(RowParses(rows))
  }

  /** The loop raises exactly when one of the rows does. */
  lemma {:induction false} CollectRaises(parses: seq<RowParse>)
    ensures Collect(parses).raised <==> exists k :: 0 <= k < |parses| && parses[k].RowRaised?
  {
    if parses != [] {
      CollectRaises(parses[1..]);
      assert forall k :: 1 <= k < |parses| ==> parses[k] == parses[1..][k - 1];
    }
  }

  /** Every record the loop keeps is one a row parse kept. */
  lemma {:induction false} CollectKept(parses: seq<RowParse>)
    ensures forall k :: 0 <= k < |Collect(parses).records| ==>
      exists j :: 0 <= j < |parses| && parses[j] == RowKept(Collect(parses).records[k])
  {
    if parses != [] {
      var rest := parses[1..];
      CollectKept(rest);
      var recs := Collect(parses).records;
      forall k | 0 <= k < |recs|
        ensures exists j :: 0 <= j < |parses| && parses[j] == RowKept(recs[k])
      {
        if parses[0].RowKept? && k == 0 {
          assert parses[0] == RowKept(recs[0]);
        } else {
          var k' := if parses[0].RowKept? then k - 1 else k;
          assert recs[k] == Collect(rest).records[k'];
          var j :| 0 <= j < |rest| && rest[j] == RowKept(Collect(rest).records[k']);
          assert parses[j + 1] == rest[j];
        }
      }
    } else {
      assert Collect(parses).records == [];
    }
  }

  /** The loop over two lists: the second is reached only when the first does
      not raise, and its records follow those of the first. */
  lemma {:induction false} CollectAppend(p: seq<RowParse>, q: seq<RowParse>)
    ensures Collect(p + q) == if Collect(p).raised then Collect(p)
      else Scrape(Collect(p).records + Collect(q).records, Collect(q).raised)
  {
    if p == [] {
      assert p + q == q;
    } else {
      assert (p + q)[0] == p[0] && (p + q)[1..] == p[1..] + q;
      CollectAppend(p[1..], q);
      if p[0].RowKept? && !Collect(p[1..]).raised {
        var d, first, second := p[0].record, Collect(p[1..]).records, Collect(q).records;
        assert [d] + (first + second) == ([d] + first) + second;
      }
    }
  }

  /** The HTML row loop raises exactly when one of its rows does. */
  lemma HtmlScrapeRaises(rows: seq<string>)
    ensures HtmlScrape(rows).raised <==> exists k :: 0 <= k < |rows| && ParseRow(rows[k]).RowRaised?
  {
    CollectRaises(RowParses(rows));
  }

  /** Every scraped record has exactly 20 numbers, each in [1, 80], a nine-digit
      id starting with 11 and the placeholder time. */
  lemma HtmlScrapeWellFormed(rows: seq<string>)
    ensures forall k :: 0 <= k < |HtmlScrape(rows).records| ==> WellFormedScraped(HtmlScrape(rows).records[k])
  {
    var ps := RowParses(rows);
    CollectKept(ps);
    forall k | 0 <= k < |HtmlScrape(rows).records|
      ensures WellFormedScraped(HtmlScrape(rows).records[k])
    {
      var j :| 0 <= j < |ps| && ps[j] == RowKept(Collect(ps).records[k]);
      ParseRowWellFormed(rows[j]);
    }
  }

  /** The loop over two row lists: the second is reached only when the first
      does not raise, and its records follow those of the first. */
  lemma HtmlScrapeAppend(a: seq<string>, b: seq<string>)
    ensures HtmlScrape(a + b) == if HtmlScrape(a).raised then HtmlScrape(a)
      else Scrape(HtmlScrape(a).records + HtmlScrape(b).records, HtmlScrape(b).raised)
  {
    assert RowParses(a + b) == RowParses(a) + RowParses(b);
    CollectAppend(RowParses(a), RowParses(b));
  }

  lemma HtmlScrapeOfOneRow(text: string)
    ensures HtmlScrape([text]) == match ParseRow(text)
      case RowRaised => Scrape([], true)
      case RowSkipped => Scrape([], false)
      case RowKept(d) => Scrape([d], false)
  {
    var p := ParseRow(text);
    assert RowParses([text]) == [p];
    assert [p][1..] == [];
    assert Collect([p][1..]) == Scrape([], false);
  }

  /** One more row for a loop that has not raised: it raises, which ends the
      whole loop with the records so far, or it adds nothing, or it adds its
      record at the end. */
  lemma HtmlScrapeStep(rows: seq<string>, j: nat)
    requires j < |rows| && !HtmlScrape(rows[..j]).raised
    ensures var recs := HtmlScrape(rows[..j]).records;
      match ParseRow(rows[j])
        case RowRaised => HtmlScrape(rows) == Scrape(recs, true)
        case RowSkipped => HtmlScrape(rows[..j + 1]) == Scrape(recs, false)
        case RowKept(d) => HtmlScrape(rows[..j + 1]) == Scrape(recs + [d], false)
  {
    assert rows[..j + 1] == rows[..j] + [rows[j]];
    HtmlScrapeAppend(rows[..j], [rows[j]]);
    HtmlScrapeOfOneRow(rows[j]);
    if ParseRow(rows[j]).RowRaised? {
      assert rows[..j + 1] + rows[j + 1..] == rows;
      HtmlScrapeAppend(rows[..j + 1], rows[j + 1..]);
    }
  }

  /** The row loop: appends to `acc` the record of every qualifying row, and
      stops at the first row whose scan raises, keeping what was appended. */
  method ScrapeRows(acc: seq<DrawRecord>, rows: seq<string>) returns (data: seq<DrawRecord>, raised: bool)
    ensures data == acc + HtmlScrape(rows).records
    ensures raised == HtmlScrape(rows).raised
  {
    data := acc;
    raised := false;
    var j := 0;
    while j < |rows|
      invariant 0 <= j <= |rows|
      invariant !HtmlScrape(rows[..j]).raised
      invariant data == acc + HtmlScrape(rows[..j]).records
    {
      HtmlScrapeStep(rows, j);
      match ParseRow(rows[j]) {
        case RowRaised =>
          // the exception leaves the loop
          raised := true;
          return;
        case RowSkipped =>
        case RowKept(rec) =>
          data := data + [rec];
      }
      j := j + 1;
    }
    assert rows[..|rows|] == rows;
  }

  /** Extra numeric text in a row does not disturb the first 20 numbers: text
      after a separator only adds values after them. */
  lemma RowNumbersExtend(text: string, sep: char, extra: string)
    requires !IsDigit(sep)
    ensures RowNumbers(text + [sep] + extra) == RowNumbers(text) + RowNumbers(extra)
  {
    DigitRunsSplit(text, sep, extra);
    InRangeValuesAppend(DigitRuns(text), DigitRuns(extra));
  }
}

=== FILE: prizes.dfy ===
/**
 * The star-pick prize rules of the ticket checker: the prize table, the match
 * count of a ticket against one draw, the table lookup and the x1.5 promotion.
 */
module Prizes {

  /** Prize for one base bet of $25: star count -> (numbers matched -> prize). */
  const PrizeTable: map<int, map<int, int>> := map[
    1 := map[1 := 50],
    2 := map[2 := 75],
    3 := map[3 := 500, 2 := 50],
    4 := map[4 := 1000, 3 := 100, 2 := 25],
    5 := map[5 := 7500, 4 := 500, 3 := 50],
    6 := map[6 := 25000, 5 := 1000, 4 := 200, 3 := 25]
  ]

  /** The price of one base bet. */
  const BaseBetPrice := 25

  /** The distinct numbers of a list (Python's `set(xs)`). */
  function Elements(xs: seq<int>): (s: set<int>)
    ensures forall x :: x in s <==> x in xs
  {
    set x | x in xs
  }

  lemma {:induction false} ElementsSize(xs: seq<int>)
    ensures |Elements(xs)| <= |xs|
  {
    if xs != [] {
      ElementsSize(xs[1..]);
      assert Elements(xs) == {xs[0]} + Elements(xs[1..]);
    }
  }

  lemma SubsetSize(a: set<int>, b: set<int>)
    requires a <= b
    ensures |a| <= |b|
  {
    assert b == a + (b - a);
    assert a * (b - a) == {};
  }

  /** `len(set(selected).intersection(set(winning)))`. */
  function MatchCount(selected: seq<int>, winning: seq<int>): (n: nat)
    ensures n <= |selected| && n <= |winning|
    ensures n == |Elements(selected) * Elements(winning)|
  {
    var matched := Elements(selected) * Elements(winning);
    ElementsSize(selected);
    ElementsSize(winning);
    SubsetSize(matched, Elements(selected));
    SubsetSize(matched, Elements(winning));
    |matched|
  }

  /** `PRIZE_TABLE[star].get(matches, 0)`: the prize of the tier, or nothing when
      the table has no tier for that many matches. */
  function BasePrize(star: int, matches: int): (p: int)
    requires star in PrizeTable
    ensures matches in PrizeTable[star] ==> p == PrizeTable[star][matches]
    ensures matches !in PrizeTable[star] ==> p == 0
  {
    var tiers := PrizeTable[star];
    if matches in tiers then tiers[matches] else 0
  }

  /** `int(base * 1.5)` when the promotion is on and the prize is positive:
      the largest integer not above one and a half times the base prize. */
  function Promote(base: int, bonus: bool): (p: int)
    requires base >= 0
    ensures bonus && base > 0 ==> 2 * p <= 3 * base < 2 * p + 2
    ensures !bonus || base == 0 ==> p == base
  {
    if bonus && base > 0 then (3 * base) / 2 else base
  }

  /** The table offers exactly the star counts 1 to 6. */
  lemma TableStars(star: int)
    ensures star in PrizeTable <==> 1 <= star <= 6
  {
  }

  /** Every tier needs at least one match and at most all of the stars, and pays
      a positive amount; the tier of a full match always exists. */
  lemma TierFacts(star: int, matches: int)
    requires star in PrizeTable
    ensures star in PrizeTable[star]
    ensures matches in PrizeTable[star] ==> 1 <= matches <= star && PrizeTable[star][matches] > 0
  {
  }

  /** Matching more of the chosen numbers never pays less. */
  lemma BasePrizeMonotone(star: int, fewer: int, more: int)
    requires star in PrizeTable && fewer <= more <= star
    ensures 0 <= BasePrize(star, fewer) <= BasePrize(star, more)
  {
    TierFacts(star, fewer);
    TierFacts(star, more);
  }

  /** The promotion never lowers a prize and keeps a zero prize at zero. */
  lemma PromoteBounds(base: int, bonus: bool)
    requires base >= 0
    ensures base <= Promote(base, bonus) <= base + base / 2
    ensures Promote(base, bonus) == 0 <==> base == 0
  {
  }

  /** The settled examples of the prize rules: three stars with three matches pays
      500, with one match nothing; under the promotion 500 becomes 750. */
  lemma PrizeExamples()
    ensures BasePrize(3, 3) == 500 && BasePrize(3, 1) == 0 && BasePrize(6, 0) == 0
    ensures Promote(BasePrize(3, 3), true) == 750 && Promote(BasePrize(3, 1), true) == 0
    ensures Promote(BasePrize(4, 2), true) == 37
  {
  }
}

=== FILE: pytext.dfy ===
/**
 * The few pieces of Python's text handling that the draw parsers rely on:
 * the `\d+` scan of `re.findall`, `int()` on a digit run or on a JSON string,
 * `str()` on an integer, slicing with `[:n]` and `str.replace` of one character.
 */
module PyText {
  import opened Wrappers

  /** A character `\d` matches in decoded page text: an ASCII digit or a full-width
      digit (the only decimal digits the Big5 encoding can produce). */
  predicate IsDigit(c: char) {
    '0' <= c <= '9' || '\U{FF10}' <= c <= '\U{FF19}'
  }

  /** A character the character class `[0-9]` matches. */
  predicate IsAsciiDigit(c: char) {
    '0' <= c <= '9'
  }

  function DigitValue(c: char): (d: nat)
    requires IsDigit(c)
    ensures d < 10
    ensures IsAsciiDigit(c) ==> c as int == '0' as int + d
  {
    if IsAsciiDigit(c) then c as int - '0' as int else c as int - '\U{FF10}' as int
  }

  predicate AllDigits(s: string) {
    forall i :: 0 <= i < |s| ==> IsDigit(s[i])
  }

  /** What `int()` gives for a string of decimal digits (leading zeros allowed). */
  function DecimalValue(s: string): nat
    requires AllDigits(s)
  {
    if s == [] then 0 else 10 * DecimalValue(s[..|s| - 1]) + DigitValue(s[|s| - 1])
  }

  // ---------------------------------------------------------------------------
  // re.findall(r'\d+', text)
  // ---------------------------------------------------------------------------

  /** Length of the run of digits at the front of `s`. */
  function RunLength(s: string): (n: nat)
    ensures n <= |s|
    ensures forall i :: 0 <= i < n ==> IsDigit(s[i])
    ensures n < |s| ==> !IsDigit(s[n])
  {
    if s == [] || !IsDigit(s[0]) then 0 else 1 + RunLength(s[1..])
  }

  /** The maximal runs of digits in `s`, left to right. */
  function DigitRuns(s: string): (runs: seq<string>)
    ensures forall k :: 0 <= k < |runs| ==> runs[k] != [] && AllDigits(runs[k])
    ensures |runs| <= |s|
    decreases |s|
  {
    if s == [] then []
    else if !IsDigit(s[0]) then DigitRuns(s[1..])
    else
      var n := RunLength(s);
      [s[..n]] + DigitRuns(s[n..])
  }

  /** A text made only of digits is one single run. */
  lemma DigitRunsOfDigits(d: string)
    requires d != [] && AllDigits(d)
    ensures DigitRuns(d) == [d]
  {
    assert RunLength(d) == |d|;
    assert d[..|d|] == d;
    assert d[|d|..] == [];
  }

  lemma RunLengthStopsAtSeparator(a: string, c: char, b: string)
    requires !IsDigit(c)
    ensures RunLength(a + [c] + b) == RunLength(a)
  {
    var s := a + [c] + b;
    var n, m := RunLength(s), RunLength(a);
    assert forall i :: 0 <= i < |a| ==> s[i] == a[i];
    assert s[|a|] == c;
  }

  /** A non-digit separates the runs on its two sides: the scan of `a + [c] + b`
      is the scan of `a` followed by the scan of `b`. */
  lemma {:induction false} DigitRunsSplit(a: string, c: char, b: string)
    requires !IsDigit(c)
    ensures DigitRuns(a + [c] + b) == DigitRuns(a) + DigitRuns(b)
    decreases |a|
  {
    var s := a + [c] + b;
    if a == [] {
      assert s == [c] + b;
      assert s[1..] == b;
    } else if !IsDigit(a[0]) {
      assert s[0] == a[0];
      assert s[1..] == a[1..] + [c] + b;
      DigitRunsSplit(a[1..], c, b);
    } else {
      assert s[0] == a[0];
      var n := RunLength(a);
      RunLengthStopsAtSeparator(a, c, b);
      assert RunLength(s) == n && n >= 1;
      assert s[..n] == a[..n];
      assert s[n..] == a[n..] + [c] + b;
      DigitRunsSplit(a[n..], c, b);
    }
  }

  // ---------------------------------------------------------------------------
  // int(x) on a string, str(n) on an integer
  // ---------------------------------------------------------------------------

  /** The characters `int()` skips before and after the number: those for which
      `str.isspace()` holds, except U+001C..U+001F, which `int()` rejects. */
  predicate IsIntSpace(c: char) {
    c == ' ' || '\t' <= c <= '\r' || c == '\U{85}' || c == '\U{A0}'
    || c == '\U{1680}' || '\U{2000}' <= c <= '\U{200A}' || c == '\U{2028}' || c == '\U{2029}'
    || c == '\U{202F}' || c == '\U{205F}' || c == '\U{3000}'
  }

  /** The index of the first character at or after `i` that `int()` does not skip. */
  function TrimStart(s: string, i: nat): (k: nat)
    requires i <= |s|
    ensures i <= k <= |s|
    ensures forall j :: i <= j < k ==> IsIntSpace(s[j])
    ensures k < |s| ==> !IsIntSpace(s[k])
    decreases |s| - i
  {
    if i < |s| && IsIntSpace(s[i]) then TrimStart(s, i + 1) else i
  }

  /** The index just past the last character before `j`, and from `lo` on, that
      `int()` does not skip. */
  function TrimEnd(s: string, lo: nat, j: nat): (k: nat)
    requires lo <= j <= |s|
    ensures lo <= k <= j
    ensures forall i :: k <= i < j ==> IsIntSpace(s[i])
    ensures lo < k ==> !IsIntSpace(s[k - 1])
  {
    if lo < j && IsIntSpace(s[j - 1]) then TrimEnd(s, lo, j - 1) else j
  }

  /** The text `int()` reads: `s` without the white space it skips at either end. */
  function Trim(s: string): (r: string)
    ensures r == [] || (!IsIntSpace(r[0]) && !IsIntSpace(r[|r| - 1]))
  {
    var start := TrimStart(s, 0);
    s[start..TrimEnd(s, start, |s|)]
  }

  /** Digits, possibly grouped by single underscores, as `int()` accepts them:
      `"80"`, `"0_5"`, but neither `"_5"`, `"5_"` nor `"1__0"`. */
  predicate IsDigitGroups(d: string) {
    && d != []
    && IsDigit(d[0]) && IsDigit(d[|d| - 1])
    && (forall i :: 0 <= i < |d| ==> IsDigit(d[i]) || d[i] == '_')
    && (forall i, j :: 0 <= i < |d| && j == i + 1 < |d| ==> !(d[i] == '_' && d[j] == '_'))
  }

  /** Python's default limit on the digits `int()` reads from a decimal text and
      `str()` writes for an integer (`sys.int_info.default_max_str_digits`);
      beyond it both raise ValueError. */
  const MaxStrDigits: nat := 4300

  /** The number of digits in a digit-group text, its underscores not counted. */
  function DigitCount(d: string): nat {
    if d == [] then 0 else DigitCount(d[..|d| - 1]) + (if d[|d| - 1] == '_' then 0 else 1)
  }

  /** The value of digits grouped by underscores: the underscores are skipped. */
  function GroupsValue(d: string): nat
    requires forall i :: 0 <= i < |d| ==> IsDigit(d[i]) || d[i] == '_'
  {
    if d == [] then 0
    else if d[|d| - 1] == '_' then GroupsValue(d[..|d| - 1])
    else 10 * GroupsValue(d[..|d| - 1]) + DigitValue(d[|d| - 1])
  }

  /** Without underscores, the grouped value is the plain decimal value and every
      character counts as a digit. */
  lemma {:induction false} GroupsValueOfDigits(d: string)
    ensures AllDigits(d) ==> GroupsValue(d) == DecimalValue(d) && DigitCount(d) == |d|
  {
    if d != [] && AllDigits(d) {
      var p := d[..|d| - 1];
      assert AllDigits(p);
      GroupsValueOfDigits(p);
    }
  }

  /** `int(s)` for a string `s`: None where Python raises ValueError. */
  function ParseInt(s: string): (r: Option<int>)
    ensures r.Some? ==> var t := Trim(s);
      && t != [] && IsDigit(t[|t| - 1])
      && (IsDigit(t[0]) || t[0] == '-' || t[0] == '+')
  {
    ParseStripped(Trim(s))
  }

  /** `int()` on a text without surrounding white space: an optional sign, then
      digit groups. */
  function ParseStripped(t: string): (r: Option<int>)
    ensures r.Some? ==> t != [] && IsDigit(t[|t| - 1]) && (IsDigit(t[0]) || t[0] == '-' || t[0] == '+')
    ensures r.Some? ==> (r.value < 0 ==> t[0] == '-') && (t[0] == '-' ==> r.value <= 0)
  {
    if t == [] then None
    else
      var negative := t[0] == '-';
      var digits := if t[0] == '-' || t[0] == '+' then t[1..] else t;
      match ParseUnsigned(digits)
      case None => None
      case Some(v) => Some(if negative then -(v as int) else v as int)
  }

  /** The value of digit groups without a sign; None beyond `MaxStrDigits` digits.
      A text of plain digits reads as its decimal value exactly when it is not
      empty and not too long. */
  function ParseUnsigned(digits: string): (r: Option<nat>)
    ensures r.Some? ==> digits != [] && IsDigit(digits[0]) && IsDigit(digits[|digits| - 1])
    ensures AllDigits(digits) ==>
      r == if digits != [] && |digits| <= MaxStrDigits then Some(DecimalValue(digits)) else None
  {
    GroupsValueOfDigits(digits);
    if IsDigitGroups(digits) && DigitCount(digits) <= MaxStrDigits then Some(GroupsValue(digits)) else None
  }

  /** A run of digits, as `re.findall(r'\d+')` returns it, reads as its decimal
      value when it has at most `MaxStrDigits` digits and raises otherwise. */
  lemma DigitRunParses(d: string)
    ensures d != [] && AllDigits(d) ==>
      ParseInt(d) == if |d| <= MaxStrDigits then Some(DecimalValue(d) as int) else None
  {
    if d != [] && AllDigits(d) {
      assert d[0] != '-' && d[0] != '+';
      TrimNoSpace(d);
    }
  }

  function DigitChar(d: nat): (c: char)
    requires d < 10
    ensures IsAsciiDigit(c) && DigitValue(c) == d
  {
    ('0' as int + d) as char
  }

  /** The decimal text of a non-negative integer, however long. */
  function NatToString(n: nat): (s: string)
    ensures s != [] && forall i :: 0 <= i < |s| ==> IsAsciiDigit(s[i])
  {
    if n < 10 then [DigitChar(n)] else NatToString(n / 10) + [DigitChar(n % 10)]
  }

  /** The decimal text of any integer: a minus sign exactly for a negative one,
      then the digits of its magnitude. */
  function IntToString(n: int): (r: string)
    ensures r != [] && (r[0] == '-' <==> n < 0)
    ensures r[if n < 0 then 1 else 0..] == NatToString(if n < 0 then -n else n)
  {
    if n < 0 then "-" + NatToString(-n) else NatToString(n)
  }

  /** `str(n)`: None where Python raises ValueError because `n` has more than
      `MaxStrDigits` digits. */
  function StrOfInt(n: int): (r: Option<string>)
    ensures r.Some? <==> |IntToString(n)| <= MaxStrDigits + (if n < 0 then 1 else 0)
    ensures r.Some? ==> r.value == IntToString(n)
  {
    var s := IntToString(n);
    if |NatToString(if n < 0 then -n else n)| <= MaxStrDigits then Some(s) else None
  }

  lemma {:induction false} NatToStringValue(n: nat)
    ensures AllDigits(NatToString(n)) && DecimalValue(NatToString(n)) == n
  {
    var s := NatToString(n);
    if n >= 10 {
      NatToStringValue(n / 10);
      assert s[..|s| - 1] == NatToString(n / 10);
    }
  }

  /** `int()` reads a text with no white space at either end as it stands. */
  lemma TrimNoSpace(s: string)
    requires s != [] && !IsIntSpace(s[0]) && !IsIntSpace(s[|s| - 1])
    ensures Trim(s) == s && ParseInt(s) == ParseStripped(s)
  {
    assert TrimStart(s, 0) == 0;
    assert TrimEnd(s, 0, |s|) == |s|;
  }

  /** A text of at most `MaxStrDigits` digits reads as its decimal value. */
  lemma ParseDigits(d: string)
    requires d != [] && AllDigits(d) && |d| <= MaxStrDigits
    ensures ParseStripped(d) == Some(DecimalValue(d) as int)
  {
    assert d[0] != '-' && d[0] != '+';
  }

  /** A minus sign before a text of at most `MaxStrDigits` digits reads as the
      negated value. */
  lemma ParseNegatedDigits(d: string)
    requires d != [] && AllDigits(d) && |d| <= MaxStrDigits
    ensures ParseStripped("-" + d) == Some(-(DecimalValue(d) as int))
  {
    var s := "-" + d;
    assert s[0] == '-' && s[1..] == d;
  }

  /** The decimal text of a natural number of at most `MaxStrDigits` digits
      has no white space at its ends and reads back as the number. */
  lemma NatToStringParses(m: nat)
    requires |NatToString(m)| <= MaxStrDigits
    ensures var d := NatToString(m);
      && !IsIntSpace(d[0]) && !IsIntSpace(d[|d| - 1])
      && ParseStripped(d) == Some(m as int)
  {
    NatToStringValue(m);
    ParseDigits(NatToString(m));
  }

  /** A minus sign before the decimal text of such a natural number reads back
      as its negation. */
  lemma NegatedParses(m: nat)
    requires |NatToString(m)| <= MaxStrDigits
    ensures var s := "-" + NatToString(m);
      && !IsIntSpace(s[|s| - 1])
      && ParseStripped(s) == Some(-(m as int))
  {
    var d := NatToString(m);
    NatToStringValue(m);
    ParseNegatedDigits(d);
    assert ("-" + d)[|d|] == d[|d| - 1];
  }

  /** What `str(n)` writes starts with a minus sign or a digit, ends with a
      digit, and its sign and digits read back as `n`. */
  lemma IntToStringParses(n: int)
    requires |NatToString(if n < 0 then -n else n)| <= MaxStrDigits
    ensures var s := IntToString(n);
      && s != [] && !IsIntSpace(s[0]) && !IsIntSpace(s[|s| - 1])
      && ParseStripped(s) == Some(n)
  {
    if n < 0 {
      NegatedParses(-n);
    } else {
      NatToStringParses(n);
    }
  }

  /** `int(str(n)) == n` whenever `str(n)` does not raise. */
  lemma IntToStringRoundTrip(n: int)
    ensures StrOfInt(n).Some? ==> ParseInt(StrOfInt(n).value) == Some(n)
  {
    if StrOfInt(n).Some? {
      IntToStringParses(n);
      TrimNoSpace(IntToString(n));
    }
  }

  /** The white space `int()` skips and the one it rejects: `int(" 5\n")` is 5,
      but `int("\x1c5")` raises although `"\x1c5".strip()` is `"5"`. */
  lemma IntSpaceExamples()
    ensures ParseInt(" 5\n") == Some(5)
    ensures ParseInt("\U{1C}5") == None
  {
    assert Trim(" 5\n") == "5";
    assert Trim("\U{1C}5") == "\U{1C}5";
  }

  // ---------------------------------------------------------------------------
  // s[:n] and s.replace(a, b) for single characters
  // ---------------------------------------------------------------------------

  /** Python's `s[:n]` for `n >= 0`: the whole of `s` when it is shorter. */
  function Prefix<T>(s: seq<T>, n: nat): (r: seq<T>)
    ensures |r| == if |s| < n then |s| else n
    ensures r == s[..|r|]
  {
    if |s| <= n then s else s[..n]
  }

  /** `s.replace(from, to)` for one-character `from` and `to`. */
  function ReplaceChar(s: string, from: char, to: char): (r: string)
    ensures |r| == |s|
    ensures forall i :: 0 <= i < |s| ==> r[i] == if s[i] == from then to else s[i]
  {
    if s == [] then [] else [if s[0] == from then to else s[0]] + ReplaceChar(s[1..], from, to)
  }
}

=== FILE: settlement.dfy ===
/**
 * Checking a star-pick ticket against the draws on hand: one result row per
 * draw, the accumulated prize, the cost of the ticket, and the guard that
 * decides whether the ticket is checked at all.
 */
module Settlement {
  import opened Prizes

  /** What the sidebar collects: star count, multiplier, number of consecutive
      draws bought, whether the promotion applies, the first draw id and the
      chosen numbers. */
  datatype Ticket = Ticket(
    playStar: int,
    multiplier: int,
    drawCounts: int,
    bonus: bool,
    startDraw: string,
    selected: seq<int>)

  /** The ranges the sidebar widgets allow: 1 to 6 stars, multiplier and number
      of draws at least 1. */
  predicate FromWidgets(t: Ticket) {
    1 <= t.playStar <= 6 && t.multiplier >= 1 && t.drawCounts >= 1
  }

  /** The draw data in the dictionary's iteration order: (draw id, winning numbers). */
  type Draws = seq<(string, seq<int>)>

  /** One line of the results table: the draw, its numbers, the chosen numbers
      it matched and the prize won on it. */
  datatype Row = Row(drawId: string, winning: seq<int>, matched: set<int>, finalPrize: int)

  datatype Outcome = Outcome(rows: seq<Row>, totalPrize: int, totalCost: int)

  /** The row for one draw: match count, table prize, promotion, multiplier. */
  function RowFor(t: Ticket, drawId: string, winning: seq<int>): (r: Row)
    requires t.playStar in PrizeTable
    ensures r.drawId == drawId && r.winning == winning
    ensures forall x :: x in r.matched <==> x in t.selected && x in winning
    ensures |r.matched| == MatchCount(t.selected, winning)
  {
    var matched := Elements(t.selected) * Elements(winning);
    var base := BasePrize(t.playStar, MatchCount(t.selected, winning));
    TierFacts(t.playStar, MatchCount(t.selected, winning));
    Row(drawId, winning, matched, Promote(base, t.bonus) * t.multiplier)
  }

  /** The rows of the whole results table, one per draw and in the same order. */
  function SettledRows(t: Ticket, draws: Draws): (rows: seq<Row>)
    requires t.playStar in PrizeTable
    ensures |rows| == |draws|
    ensures forall i :: 0 <= i < |draws| ==> rows[i] == RowFor(t, draws[i].0, draws[i].1)
  {
    if draws == [] then [] else [RowFor(t, draws[0].0, draws[0].1)] + SettledRows(t, draws[1..])
  }

  /** Whether no row has a negative prize. */
  predicate NoNegativePrize(rows: seq<Row>) {
    forall k :: 0 <= k < |rows| ==> rows[k].finalPrize >= 0
  }

  /** The sum of the prizes of the rows. */
  function TotalPrize(rows: seq<Row>): (total: int)
    ensures NoNegativePrize(rows) ==> total >= 0
  {
    if rows == [] then 0 else rows[0].finalPrize + TotalPrize(rows[1..])
  }

  lemma {:induction false} TotalPrizeAppend(a: seq<Row>, b: seq<Row>)
    ensures TotalPrize(a + b) == TotalPrize(a) + TotalPrize(b)
  {
    if a != [] {
      assert (a + b)[1..] == a[1..] + b;
      TotalPrizeAppend(a[1..], b);
    } else {
      assert a + b == b;
    }
  }

  /** One more draw adds its row at the end. */
  lemma SettledRowsStep(t: Ticket, draws: Draws, i: nat)
    requires t.playStar in PrizeTable && i < |draws|
    ensures SettledRows(t, draws[..i + 1]) == SettledRows(t, draws[..i]) + [RowFor(t, draws[i].0, draws[i].1)]
  {
    assert draws[..i + 1] == draws[..i] + [draws[i]];
    SettleMoreDraws(t, draws[..i], [draws[i]]);
  }

  /** One more row adds its prize to the total. */
  lemma TotalPrizeStep(rows: seq<Row>, row: Row)
    ensures TotalPrize(rows + [row]) == TotalPrize(rows) + row.finalPrize
  {
    TotalPrizeAppend(rows, [row]);
  }

  /** Checks the ticket against every draw on hand, accumulating the prize. */
  method Settle(t: Ticket, draws: Draws) returns (result: Outcome)
    requires t.playStar in PrizeTable
    ensures result.totalCost == BaseBetPrice * t.multiplier * t.drawCounts
    ensures result.rows == SettledRows(t, draws)
    ensures result.totalPrize == TotalPrize(result.rows)
  {
    var totalPrize := 0;
    var totalCost := BaseBetPrice * t.multiplier * t.drawCounts;
    var rows: seq<Row> := [];
    for i := 0 to |draws|
      invariant rows == SettledRows(t, draws[..i])
      invariant totalPrize == TotalPrize(rows)
    {
      var (drawId, winning) := draws[i];
      var matchedNumbers := Elements(t.selected) * Elements(winning);
      var matchCount := |matchedNumbers|;
      var basePrize := BasePrize(t.playStar, matchCount);
      TierFacts(t.playStar, matchCount);
      if t.bonus && basePrize > 0 {
        basePrize := (3 * basePrize) / 2;
      }
      var finalPrize := basePrize * t.multiplier;
      totalPrize := totalPrize + finalPrize;
      var row := Row(drawId, winning, matchedNumbers, finalPrize);
      assert row == RowFor(t, drawId, winning);
      SettledRowsStep(t, draws, i);
      TotalPrizeStep(rows, row);
      rows := rows + [row];
    }
    assert draws[..|draws|] == draws;
    result := Outcome(rows, totalPrize, totalCost);
  }

  /** Which branch the page takes for a ticket. */
  datatype Verdict = Settled(outcome: Outcome) | WrongCount | Idle

  /** Settles only a ticket with exactly `playStar` numbers and a start draw; a
      non-empty selection of any other size is an error; anything else shows
      nothing. */
  method CheckTicket(t: Ticket, draws: Draws) returns (v: Verdict)
    requires t.playStar in PrizeTable
    ensures v.Settled? <==> |t.selected| == t.playStar && t.startDraw != ""
    ensures v.WrongCount? <==> 0 < |t.selected| != t.playStar
    ensures v.Settled? ==> v.outcome.rows == SettledRows(t, draws)
    ensures v.Settled? ==> v.outcome.totalPrize == TotalPrize(v.outcome.rows)
    ensures v.Settled? ==> v.outcome.totalCost == BaseBetPrice * t.multiplier * t.drawCounts
  {
    if |t.selected| == t.playStar && t.startDraw != "" {
      var result := Settle(t, draws);
      v := Settled(result);
    } else if |t.selected| > 0 && |t.selected| != t.playStar {
      v := WrongCount;
    } else {
      v := Idle;
    }
  }

  /** A row's prize is the promoted table prize times the multiplier, so it is
      never negative, and it is zero exactly when the match count has no tier. */
  lemma RowPrize(t: Ticket, drawId: string, winning: seq<int>)
    requires FromWidgets(t)
    ensures var r := RowFor(t, drawId, winning);
      && r.finalPrize >= 0
      && (r.finalPrize == 0 <==> MatchCount(t.selected, winning) !in PrizeTable[t.playStar])
      && |r.matched| <= |t.selected|
  {
    var m := MatchCount(t.selected, winning);
    TierFacts(t.playStar, m);
    var p := Promote(BasePrize(t.playStar, m), t.bonus);
    PromoteBounds(BasePrize(t.playStar, m), t.bonus);
    ScaledByMultiplier(p, t.multiplier);
  }

  lemma ScaledByMultiplier(p: int, multiplier: int)
    requires p >= 0 && multiplier >= 1
    ensures p * multiplier >= p
    ensures p * multiplier == 0 <==> p == 0
  {
    assert p * multiplier == p * (multiplier - 1) + p;
    assert p * (multiplier - 1) >= 0;
  }

  /** Every row's prize and the total are non-negative. */
  lemma {:induction false} PrizesNonNegative(t: Ticket, draws: Draws)
    requires FromWidgets(t)
    ensures forall r :: r in SettledRows(t, draws) ==> r.finalPrize >= 0
    ensures TotalPrize(SettledRows(t, draws)) >= 0
  {
    var rows := SettledRows(t, draws);
    forall i | 0 <= i < |draws| ensures rows[i].finalPrize >= 0 {
      RowPrize(t, draws[i].0, draws[i].1);
    }
    if draws != [] {
      PrizesNonNegative(t, draws[1..]);
      assert rows[1..] == SettledRows(t, draws[1..]);
    }
  }

  /** Settling more draws only appends rows: the rows for the first draws are
      unchanged and the total grows by the prizes of the new rows. */
  lemma SettleMoreDraws(t: Ticket, earlier: Draws, later: Draws)
    requires t.playStar in PrizeTable
    ensures SettledRows(t, earlier + later) == SettledRows(t, earlier) + SettledRows(t, later)
    ensures TotalPrize(SettledRows(t, earlier + later))
         == TotalPrize(SettledRows(t, earlier)) + TotalPrize(SettledRows(t, later))
  {
    var all := earlier + later;
    var rows := SettledRows(t, earlier) + SettledRows(t, later);
    forall i | 0 <= i < |all| ensures SettledRows(t, all)[i] == rows[i] {
      if i >= |earlier| {
        assert all[i] == later[i - |earlier|];
      }
    }
    TotalPrizeAppend(SettledRows(t, earlier), SettledRows(t, later));
  }

  /** The numbers of draw 113000123 in the page's built-in sample data. */
  const SampleWinning: seq<int> :=
    [3, 8, 12, 15, 22, 27, 31, 38, 42, 45, 50, 55, 61, 65, 68, 70, 72, 75, 78, 80]

  /** Draw 113000123 of the sample data, checked with the sidebar's defaults
      (3 stars, multiplier 4, 10 draws) and the numbers 3, 8 and 12: all three
      are drawn, so it pays 500 x 4, and 750 x 4 under the promotion. */
  lemma SampleDrawExample(bonus: bool)
    ensures var row := RowFor(Ticket(3, 4, 10, bonus, "113000123", [3, 8, 12]), "113000123", SampleWinning);
      && row.matched == {3, 8, 12}
      && row.finalPrize == if bonus then 3000 else 2000
  {
    SampleMatches();
    assert BasePrize(3, 3) == 500;
    assert Promote(500, bonus) == if bonus then 750 else 500;
  }

  lemma SampleMatches()
    ensures Elements([3, 8, 12]) * Elements(SampleWinning) == {3, 8, 12}
    ensures MatchCount([3, 8, 12], SampleWinning) == 3
  {
    var chosen: set<int> := {3, 8, 12};
    assert Elements([3, 8, 12]) == chosen;
    assert SampleWinning[0] == 3 && SampleWinning[1] == 8 && SampleWinning[2] == 12;
    assert chosen * Elements(SampleWinning) == chosen;
    assert |chosen| == 3;
  }
}

=== FILE: wrappers.dfy ===
/** The optional value used wherever the Python code may raise or find nothing. */
module Wrappers {

  datatype Option<+T> = None | Some(value: T) {

    /** The value, or `default` when there is none (Python's `dict.get(key, default)`). */
    function GetOr(default: T): T {
      match this
      case Some(v) => v
      case None => default
    }
  }
}
